=== FILE: README.md ===
# Epoch input gate of the simces user component

This project models the core of `UserComponent`. It is a participant in a
message-driven, epoch-based simulation that represents a user and their
electric car. In every epoch the component waits until each configured input
component has sent a `UserStateMessage`. It records the id of each such
message as a triggering message id. It then processes the epoch by sending
three outputs in a fixed order: car metadata, user state and car state. Each
output carries the epoch number and the triggering ids.

The model is functional:

- `EpochGate` holds the per-epoch bookkeeping as one immutable value:
  `EpochContext(required, received, triggeringIds)`. The message handler,
  the readiness test and the epoch reset are pure functions on it. `Run`
  replays a sequence of inbound messages in delivery order.
- `FanOut` models `process_epoch` and the three `_send_*` methods. Building
  and publishing a message are external steps. A function
  `OutputKind -> Attempt` supplies them, saying for each kind whether each
  step succeeds or which exception it raises. The result is the list of
  published messages and error reports, plus either the normal return
  (`True`) or the exception that escaped.
- `InputComponents` parses the comma-separated `INPUT_COMPONENTS` setting.
  `Topics` builds the output topic names `<base>.<component name>`.
  `Strings` holds the Python `str.split` and `str.join` semantics that both
  depend on.
- `UserComponent` connects the pieces. When a message completes an epoch's
  inputs, that epoch is processed with the triggering ids collected so far.

The set of required input components is a parameter of the model, held in
the `required` field of `EpochContext`. In the source, the constructor
receives `input_components` and `output_delay` but never stores them, yet
lines 153, 175 and 193 read them. `create_component` also passes the
undefined name `ctarget_state_of_charge` and leaves out both arguments. So,
as written, the component cannot be constructed, and its handler would fail
with an attribute error. The model follows the evident intent: the
configured set is the required set.

Two of the system's documented promises go beyond what the code does. The
model follows the code in both cases:

- The code has no explicit gate states (waiting, ready, processing,
  completed, failed).
- Whether processing runs at most once per epoch depends on the platform's
  base component, which is not part of this model. The model proves only the
  part that the handler guarantees: once the epoch is ready, no further
  message registers (`EpochGate.ReadyIsStable`).

Triggering ids are emptied at the start of each epoch by the base component
(user_component/user_component.py:124-126). `EpochGate.BeginEpoch` models
that together with `clear_epoch_variables`.

## Model

| member | source | states |
|---|---|---|
| EpochGate.HandleMessage | user_component/user_component.py:178-209 | a message registers exactly when it is a user state message from a required source that has not yet reported; a registration adds exactly that source and appends exactly its id at the end; a message of another type, from an unregistered source, or a repeat from a source that already reported leaves the context unchanged |
| EpochGate.AllMessagesReceived | user_component/user_component.py:166-175 | the body is the definition: the epoch is ready when the received set equals the required set; `EpochGate.ReadyIffAllIdsCollected` characterises it as one triggering id per required source |
| EpochGate.Run | user_component/user_component.py:178-209 | the handler applied to each message in delivery order; the required set never changes; `EpochGate.RunSummary` characterises what a run adds |
| EpochGate.HandlePreservesValid | user_component/user_component.py:192-204 | every handler step keeps the invariant: received ⊆ required, and one triggering id per received source |
| EpochGate.ClearEpochVariables | user_component/user_component.py:134-139 | after the reset no source has reported, and the epoch counts as ready immediately exactly when no input is required |
| EpochGate.BeginEpoch | user_component/user_component.py:124-139 | at an epoch boundary both the received set and the triggering ids are empty, so the invariant holds; readiness then holds exactly when the required set is empty |
| EpochGate.ReadyIffAllIdsCollected | user_component/user_component.py:166-175 | under the invariant, the epoch is ready exactly when there is one triggering id per required source |
| EpochGate.ReadyOnNthRegistration | user_component/user_component.py:175-206 | from a non-ready state, a message makes the epoch ready exactly when it registers and it contributes the n-th id, where n is the number of required sources; this never happens earlier |
| EpochGate.RegistrationCompletesIffNewlyReady | user_component/user_component.py:200-206 | a registration that leaves the epoch ready is exactly the transition from not ready to ready |
| EpochGate.ReadyIsStable | user_component/user_component.py:196-201 | once ready, any further message changes nothing and registers nothing |
| EpochGate.RunSummary | user_component/user_component.py:178-209 | replaying messages keeps the invariant; the received set grows by exactly the required sources that sent a user state message; triggering ids are only appended |
| EpochGate.ReadyIffEveryRequiredSourceReported | user_component/user_component.py:166-209 | starting from an epoch boundary, the epoch is ready exactly when every required source has sent at least one user state message, in any order and with any repeats |
| EpochGate.IgnoredMessagesAreInvisible | user_component/user_component.py:189-209 | anywhere in a run, a message of another type or from an unregistered source has no effect on the context |
| EpochGate.AppendedIdsComeFromQualifyingMessages | user_component/user_component.py:197-204 | every id appended during a run is the id of a user state message from a required source that had not reported before the run |
| InputComponents.ParseInputComponents | user_component/user_component.py:314-319 | the parsed set contains no empty name, and no name contains a comma or is longer than the setting |
| InputComponents.ParsedNamesArePieces | user_component/user_component.py:314-319 | a name is parsed exactly when it is a non-empty comma-separated piece of the setting |
| InputComponents.EmptySettingHasNoInputs | user_component/user_component.py:297-319 | the default empty setting gives an empty set of required inputs |
| InputComponents.ParseJoinRoundTrip | user_component/user_component.py:314-319 | listing valid names with commas, in any order and with repeats, parses back to exactly the set of those names |
| InputComponents.ParseAroundSeparator | user_component/user_component.py:314-319 | for all strings a and b, the names parsed from `a,b` are exactly those of a together with those of b |
| InputComponents.EmptyEntriesIgnored | user_component/user_component.py:314-319 | for all lists, a leading comma, a trailing comma or a doubled comma between two lists adds no name |
| InputComponents.RepeatedEntriesIgnored | user_component/user_component.py:314-319 | for every list, repeating it after a comma adds no name |
| InputComponents.MessyListExample | user_component/user_component.py:314-319 | example: ",a,,b,a," parses to exactly {"a", "b"} |
| Strings.Split | user_component/user_component.py:317 | splitting on a separator gives one more piece than there are separators, and no piece contains the separator |
| Strings.JoinSplit | user_component/user_component.py:317 | joining the pieces of a split with the separator restores the original string |
| Strings.SplitJoin | user_component/user_component.py:317 | splitting a join of at least one separator-free piece recovers exactly those pieces |
| Strings.SplitAroundSeparator | user_component/user_component.py:317 | the split of `a + sep + b` is the split of `a` followed by the split of `b` |
| Topics.TopicName | user_component/user_component.py:99-102 | the output topic is the base, a dot, then the component name |
| Topics.TopicSegments | user_component/user_component.py:99-102 | the dotted segments of a topic are those of the base followed by those of the component name |
| Topics.LastSegmentIsName | user_component/user_component.py:99-102 | for a component name without dots, the last dotted segment of its topic is that name |
| Topics.DistinctNamesDistinctTopics | user_component/user_component.py:99-102 | for the same base, two components with different names never share an output topic |
| Topics.DistinctBasesDistinctTopics | user_component/user_component.py:89-102 | one component never uses the same topic for two different bases |
| Topics.DefaultTopicsDistinct | user_component/user_component.py:89-102 | with the default bases "User.UserState", "User.CarState" and "Init.User.CarMetadata", one component's three output topics are pairwise distinct |
| FanOut.OutputTopics | user_component/user_component.py:95-102 | every output kind has a topic, made of its own base, a dot and the component name |
| FanOut.OutputTopicsDistinct | user_component/user_component.py:89-102 | output kinds with different bases get different topics |
| FanOut.BuildPayload | user_component/user_component.py:214-269 | each kind's payload has that kind and carries the configured user id |
| FanOut.Send | user_component/user_component.py:211-279 | one send publishes exactly when building and publishing both succeed and its topic attribute exists; the message is stamped with the epoch, the triggering ids and the kind's payload; the steps run in the order build, read topic attribute, publish, and the first failing step decides: if its exception (a missing topic raises AttributeError) is ValueError, TypeError or MessageError, the send gives one error report carrying that exception and the internal-error description; otherwise exactly that exception escapes |
| FanOut.Dispatch | user_component/user_component.py:155-163 | the kinds are sent in order and an escaping exception skips the rest, so there is at most one event per kind; `FanOut.DispatchEvents` and `FanOut.DispatchAborts` characterise the events and the abort |
| FanOut.ProcessEpoch | user_component/user_component.py:141-163 | process_epoch returns True exactly when no output kind's send lets an exception escape; `FanOut.ProcessEpochFanOut` gives the events |
| FanOut.DispatchEvents | user_component/user_component.py:141-163 | the i-th event belongs to the i-th kind attempted; it is a publication exactly when that kind's attempt succeeds; published messages carry the epoch, the ids, the kind's topic and payload; error reports carry a caught exception |
| FanOut.DispatchCompletes | user_component/user_component.py:141-163 | when every kind has a topic and every exception is caught, dispatch returns normally with exactly one event per kind |
| FanOut.DispatchAborts | user_component/user_component.py:141-163 | dispatch aborts exactly when some kind's send lets an exception escape; it stops at the first such kind, every earlier kind has left its event, and the escaping exception is that kind's first failure; a completed dispatch leaves one event per kind |
| FanOut.ProcessEpochFanOut | user_component/user_component.py:141-163 | process_epoch attempts metadata, user state and car state in that order; with caught failures only, it returns True and each kind is published or reported on its own outcome alone; every published message carries the epoch, the triggering ids, its payload and the topic `<base>.<component name>` |
| FanOut.OutputTopicsAsWritten | user_component/user_component.py:95-102 | as written, the user state topic attribute is missing, while the car metadata and car state topics are present and as intended |
| FanOut.ProcessEpochAsWritten | user_component/user_component.py:96-163 | process_epoch as written, with the user state topic attribute missing; the body is the definition; `FanOut.AsWrittenNeverSendsCarState` characterises it |
| FanOut.AsWrittenNeverSendsCarState | user_component/user_component.py:96-231 | as written, once the user state message builds, the missing topic attribute raises AttributeError, which the send does not catch; the car state is never attempted and process_epoch does not return True |
| FanOut.AllSendsSucceedExample | user_component/user_component.py:153-163 | epoch 7 with triggering ids ["m1"] and every send succeeding: three messages are published, each stamped (7, ["m1"]) |
| FanOut.SecondKindFailsExample | user_component/user_component.py:153-163 | when the user state message fails validation, metadata is published, user state gives an error report, and car state is still published |
| UserComponent.OnMessage | user_component/user_component.py:200-206 | the gate step is exactly the handler's step; processing is triggered exactly when the message moves the epoch from not ready to ready; it then runs process_epoch, sending the output kinds in order, with one triggering id per required source, the last one being this message's id; with caught failures only, processing returns True with one event per output kind, and every published message carries the epoch and those triggering ids |
| UserComponent.SingleInputExample | user_component/user_component.py:178-206 | required source "stationSim" and message "m1" in epoch 7: processing is triggered with ids ["m1"] and publishes three messages stamped (7, ["m1"]) |

## Left out

- The pre-processing delay `asyncio.sleep(self._output_delay)` (line 153) is left out. The sends read `_latest_epoch` and `_triggering_message_ids` only after this suspension point (lines 216-217, 238-239, 260-261). The model fixes the epoch number and the triggering ids at the moment processing is triggered. This assumes nothing changes them during the delay, because the platform handles inbound events one at a time.
- RabbitMQ publishing (`send_message`) is not modelled. The `Attempt` parameter stands for its outcome.
- Logging (`LOGGER`, `log_exception`) is not modelled.
- Error-status delivery (`send_error_message`) is modelled only as the `ErrorReported` event.
- The base component is not part of this model. That covers `start_epoch`, `_latest_epoch`, `_message_generator`, `send_error_message` and epoch-message handling, including the zero-input case where the epoch message itself starts processing. `UserComponent.OnMessage` assumes processing starts when the handler completes the inputs, and at-most-once processing per epoch is not claimed.
- Loading settings from the environment (lines 89-93 and 287-312) and the type casts are external configuration. Only the default topic bases are kept, as constants in `Topics` (see `Topics.DefaultTopicsDistinct`).
- Constructor wiring in `__init__` and `create_component` (lines 44-83 and 323-333) is not modelled: it does not run as written. The required set, the epoch number and the configuration values are parameters instead.
- `start_component` (lines 335-361) is process startup and shutdown.
- Floating-point payload values (state of charge, capacity, maximum power) are modelled as `real` and treated as opaque; no rounding is modelled.
- Message schemas, their field validators and JSON round-trips (user_component/user_state_message.py) are not modelled. They live in a message base class that is not part of this model, and the validators become type facts in a typed model.
- Message ids and component names are plain strings; their format is set by the platform.

## Findings

| source | as written | input that shows it | evidently intended | confidence | as-written member | corrected member |
|---|---|---|---|---|---|---|
| user_component/user_component.py:96 | the assignment of `_user_state_topic_output` is commented out, but line 224 reads it; the resulting AttributeError is not among the exceptions the send catches, so it escapes `process_epoch` | any epoch in which the car metadata send finishes and the user state message builds, e.g. every attempt succeeding, with `output_delay` stored by the constructor (otherwise line 153 raises first) | the user state message is published to `<user state base>.<component name>`, the car state message is still sent, and `process_epoch` returns True | high; not executed | FanOut.AsWrittenNeverSendsCarState | FanOut.ProcessEpochFanOut |

=== FILE: epoch_gate.dfy ===
/**
 The epoch input gate of the user component: within one epoch it records
 which required input components have reported and the ids of the messages
 that triggered processing, and it decides when the epoch is ready to be
 processed. The state is an immutable per-epoch context; every inbound
 message and every epoch boundary is a pure transition on it.
 */
module EpochGate {

  /** An inbound message as the handler sees it: a user state message with its
      id and the process id of its source, or a message of any other type. */
  datatype Message =
    | UserStateMessage(messageId: string, sourceProcessId: string)
    | OtherMessage(routingKey: string)

  /** The per-epoch bookkeeping: the configured input components, those that
      have reported in the current epoch, and the triggering message ids. */
  datatype EpochContext = EpochContext(
    required: set<string>,
    received: set<string>,
    triggeringIds: seq<string>)

  /** How the handler disposed of one message. */
  datatype Verdict =
    | IgnoredUnknownType    // not a user state message
    | IgnoredUnregistered   // source is not a configured input component
    | IgnoredDuplicate      // source has already reported this epoch
    | Registered            // first report of a required source this epoch

  datatype Step = Step(context: EpochContext, verdict: Verdict)

  /** The gate's invariant: only required sources are received, and each
      received source contributed exactly one triggering id. */
  ghost predicate Valid(c: EpochContext)
  {
    && c.received <= c.required
    && |c.triggeringIds| == |c.received|
  }

  /** `all_messages_received_for_epoch`: every required source has reported. */
  predicate AllMessagesReceived(c: EpochContext)
  {
    c.required == c.received
  }

  /** `clear_epoch_variables`: forget which sources have reported. */
  function ClearEpochVariables(c: EpochContext): (r: EpochContext)
    ensures r.received == {}
    ensures r.required == c.required && r.triggeringIds == c.triggeringIds
    ensures AllMessagesReceived(r) <==> c.required == {}
  {
    c.(received := {})
  }

  /** An epoch boundary: the base class empties the triggering ids and then
      the component clears its own epoch variables. */
  function BeginEpoch(c: EpochContext): (r: EpochContext)
    ensures Valid(r)
    ensures r.required == c.required && r.received == {} && r.triggeringIds == []
    ensures AllMessagesReceived(r) <==> c.required == {}
  {
    ClearEpochVariables(c.(triggeringIds := []))
  }

  /** `general_message_handler`: record the first user state message of each
      required source in the current epoch and ignore everything else. */
  function HandleMessage(c: EpochContext, m: Message): (s: Step)
    ensures s.context.required == c.required
    ensures s.verdict == Registered <==>
              m.UserStateMessage? && m.sourceProcessId in c.required && m.sourceProcessId !in c.received
    ensures s.verdict == Registered ==>
              && s.context.received == c.received + {m.sourceProcessId}
              && s.context.triggeringIds == c.triggeringIds + [m.messageId]
    ensures s.verdict != Registered ==> s.context == c
    ensures s.verdict == IgnoredUnknownType <==> m.OtherMessage?
    ensures s.verdict == IgnoredDuplicate <==>
              m.UserStateMessage? && m.sourceProcessId in c.required && m.sourceProcessId in c.received
  {
    match m
    case OtherMessage(_) => Step(c, IgnoredUnknownType)
    case UserStateMessage(id, source) =>
      if source !in c.required then Step(c, IgnoredUnregistered)
      else if source in c.received then Step(c, IgnoredDuplicate)
      else
        Step(c.(received := c.received + {source},
                triggeringIds := c.triggeringIds + [id]),
             Registered)
  }

  /** Every handler step keeps the invariant. */
  lemma HandlePreservesValid(c: EpochContext, m: Message)
    requires Valid(c)
    ensures Valid(HandleMessage(c, m).context)
  {
    var s := HandleMessage(c, m);
    if s.verdict == Registered {
      assert |c.received + {m.sourceProcessId}| == |c.received| + 1;
    }
  }

  /** A received set of the required size is the whole required set. */
  lemma FullSubsetIsEqual(received: set<string>, required: set<string>)
    requires received <= required
    requires |received| == |required|
    ensures received == required
  {
    assert |required - received| == |required| - |received|;
    assert required - received == {};
  }

  /** Under the invariant, readiness is exactly "one triggering id per
      required source". */
  lemma ReadyIffAllIdsCollected(c: EpochContext)
    requires Valid(c)
    ensures AllMessagesReceived(c) <==> |c.triggeringIds| == |c.required|
  {
    if |c.triggeringIds| == |c.required| {
      FullSubsetIsEqual(c.received, c.required);
    }
  }

  /** Readiness is first reached by a registration, and it is reached by
      exactly the message that contributes the n-th triggering id. */
  lemma ReadyOnNthRegistration(c: EpochContext, m: Message)
    requires Valid(c)
    requires !AllMessagesReceived(c)
    ensures var s := HandleMessage(c, m);
            AllMessagesReceived(s.context) <==>
              s.verdict == Registered && |c.triggeringIds| + 1 == |c.required|
  {
    var s := HandleMessage(c, m);
    HandlePreservesValid(c, m);
    ReadyIffAllIdsCollected(c);
    ReadyIffAllIdsCollected(s.context);
  }

  /** Once ready, the handler changes nothing and registers nothing, so it
      never triggers processing a second time within the epoch. */
  lemma ReadyIsStable(c: EpochContext, m: Message)
    requires Valid(c)
    requires AllMessagesReceived(c)
    ensures HandleMessage(c, m).context == c
    ensures HandleMessage(c, m).verdict != Registered
  {
  }

  /** A registration that leaves the epoch ready is exactly a step from not
      ready to ready: the handler asks to start the epoch at that point and
      at no other. */
  lemma RegistrationCompletesIffNewlyReady(c: EpochContext, m: Message)
    requires Valid(c)
    ensures var s := HandleMessage(c, m);
            s.verdict == Registered && AllMessagesReceived(s.context) <==>
              !AllMessagesReceived(c) && AllMessagesReceived(s.context)
  {
    if !AllMessagesReceived(c) {
      ReadyOnNthRegistration(c, m);
    }
  }

  /** The context after handling `msgs` in delivery order. */
  function Run(c: EpochContext, msgs: seq<Message>): (r: EpochContext)
    ensures r.required == c.required
    decreases |msgs|
  {
    if |msgs| == 0 then c
    else HandleMessage(Run(c, msgs[..|msgs| - 1]), msgs[|msgs| - 1]).context
  }

  /** `src` sent at least one user state message among `msgs`. */
  predicate Reported(msgs: seq<Message>, src: string)
  {
    exists i :: 0 <= i < |msgs| && msgs[i].UserStateMessage? && msgs[i].sourceProcessId == src
  }

  /** The required sources that sent a user state message among `msgs`. */
  function ReportingSources(msgs: seq<Message>, required: set<string>): (sources: set<string>)
    ensures sources <= required
  {
    set src | src in required && Reported(msgs, src)
  }

  /** The triggering ids only ever grow by appending. */
  ghost predicate Extends(longer: seq<string>, shorter: seq<string>)
  {
    |shorter| <= |longer| && longer[..|shorter|] == shorter
  }

  /** The reporting sources grow by the last message's source, if it is a
      required one. */
  lemma ReportingSourcesLast(msgs: seq<Message>, required: set<string>)
    requires |msgs| > 0
    ensures var m := msgs[|msgs| - 1];
            ReportingSources(msgs, required) ==
              ReportingSources(msgs[..|msgs| - 1], required) +
              (if m.UserStateMessage? && m.sourceProcessId in required then {m.sourceProcessId} else {})
  {
    var init := msgs[..|msgs| - 1];
    var m := msgs[|msgs| - 1];
    forall src | src in required && Reported(init, src) ensures Reported(msgs, src) {
      var i :| 0 <= i < |init| && init[i].UserStateMessage? && init[i].sourceProcessId == src;
      assert msgs[i] == init[i];
    }
    forall src | src in required && Reported(msgs, src) && !Reported(init, src)
      ensures m.UserStateMessage? && m.sourceProcessId == src
    {
      var i :| 0 <= i < |msgs| && msgs[i].UserStateMessage? && msgs[i].sourceProcessId == src;
      assert forall j :: 0 <= j < |init| ==> init[j] == msgs[j];
    }
  }

  /** Handling a sequence of messages keeps the invariant, adds exactly the
      required sources that reported, and only appends triggering ids. */
  lemma {:induction false} RunSummary(c: EpochContext, msgs: seq<Message>)
    requires Valid(c)
    ensures Valid(Run(c, msgs))
    ensures Run(c, msgs).received == c.received + ReportingSources(msgs, c.required)
    ensures Extends(Run(c, msgs).triggeringIds, c.triggeringIds)
    decreases |msgs|
  {
    if |msgs| == 0 {
      assert ReportingSources(msgs, c.required) == {};
    } else {
      var init := msgs[..|msgs| - 1];
      var m := msgs[|msgs| - 1];
      var prev := Run(c, init);
      var s := HandleMessage(prev, m);
      assert Run(c, msgs) == s.context;
      RunSummary(c, init);
      HandlePreservesValid(prev, m);
      ReportingSourcesLast(msgs, c.required);
      if s.verdict == Registered {
        assert s.context.triggeringIds[..|prev.triggeringIds|] == prev.triggeringIds;
      }
    }
  }

  /** From an epoch boundary, the epoch becomes ready exactly when every
      required source has sent a user state message. */
  lemma ReadyIffEveryRequiredSourceReported(c: EpochContext, msgs: seq<Message>)
    ensures AllMessagesReceived(Run(BeginEpoch(c), msgs)) <==>
              forall src :: src in c.required ==> Reported(msgs, src)
  {
    RunSummary(BeginEpoch(c), msgs);
  }

  /** A message from an unregistered source, or of another type, never moves
      the epoch towards readiness anywhere in a run. */
  lemma {:induction false} IgnoredMessagesAreInvisible(c: EpochContext, msgs: seq<Message>, m: Message)
    requires m.OtherMessage? || m.sourceProcessId !in c.required
    ensures Run(c, msgs + [m]) == Run(c, msgs)
  {
    assert (msgs + [m])[..|msgs|] == msgs;
  }

  /** Every id appended during a run is the id of a user state message from a
      required source that had not reported before the run. */
  lemma {:induction false} AppendedIdsComeFromQualifyingMessages(c: EpochContext, msgs: seq<Message>, k: nat)
    requires Valid(c)
    requires |c.triggeringIds| <= k < |Run(c, msgs).triggeringIds|
    ensures exists i :: 0 <= i < |msgs| && msgs[i].UserStateMessage?
                        && msgs[i].messageId == Run(c, msgs).triggeringIds[k]
                        && msgs[i].sourceProcessId in c.required - c.received
    decreases |msgs|
  {
    var init := msgs[..|msgs| - 1];
    var m := msgs[|msgs| - 1];
    var prev := Run(c, init);
    var s := HandleMessage(prev, m);
    RunSummary(c, init);
    if k < |prev.triggeringIds| {
      AppendedIdsComeFromQualifyingMessages(c, init, k);
      var i :| 0 <= i < |init| && init[i].UserStateMessage?
               && init[i].messageId == prev.triggeringIds[k]
               && init[i].sourceProcessId in c.required - c.received;
      assert msgs[i] == init[i];
    } else {
      assert s.verdict == Registered;
      assert msgs[|msgs| - 1] == m;
    }
  }
}

=== FILE: fan_out.dfy ===
/**
 The per-epoch output of the user component: `process_epoch` sends three
 output kinds in a fixed order (car metadata, user state, car state). Each
 send builds a message stamped with the epoch number and the triggering
 message ids, looks up its output topic and publishes it. Errors of the
 kinds the send catches become one error report for that kind and do not
 stop the later kinds; any other exception escapes `process_epoch`.

 Building and publishing are outside this model: the environment says, per
 output kind, whether each of the two steps succeeds or which exception it
 raises.
 */
module FanOut {
  import Topics

  datatype OutputKind = CarMetadata | UserState | CarState

  /** The order in which `process_epoch` sends the output kinds. */
  const FanOutOrder: seq<OutputKind> := [CarMetadata, UserState, CarState]

  /** Exceptions a send can raise. */
  datatype Exception =
    | ValueError
    | TypeError
    | MessageError
    | AttributeError
    | OtherException(name: string)

  /** The exceptions each send catches and reports. */
  predicate Caught(e: Exception)
  {
    e.ValueError? || e.TypeError? || e.MessageError?
  }

  datatype Status = Ok | Raise(exception: Exception)

  /** How the environment behaves for one output kind: the outcome of
      building the message and the outcome of publishing it. */
  datatype Attempt = Attempt(build: Status, publish: Status)

  /** Both steps of an attempt succeed. */
  predicate Succeeds(a: Attempt)
  {
    a.build.Ok? && a.publish.Ok?
  }

  /** Every exception the attempt may raise is one the send catches. */
  predicate Contained(a: Attempt)
  {
    (a.build.Raise? ==> Caught(a.build.exception)) &&
    (a.publish.Raise? ==> Caught(a.publish.exception))
  }

  /** The component's configuration. Floating-point values are `real`. */
  datatype Config = Config(
    componentName: string,
    userId: int,
    userName: string,
    stationId: int,
    stateOfCharge: real,
    carBatteryCapacity: real,
    carModel: string,
    carMaxPower: real,
    targetStateOfCharge: real,
    targetTime: string,
    userStateTopicBase: string,
    carStateTopicBase: string,
    carMetadataTopicBase: string)

  /** The kind-specific fields of an output message. */
  datatype Payload =
    | CarMetadataPayload(userId: int, userName: string, stationId: int, stateOfCharge: real,
                         carBatteryCapacity: real, carModel: string, carMaxPower: real)
    | UserStatePayload(userId: int, targetStateOfCharge: real, targetTime: string)
    | CarStatePayload(userId: int, stationId: int, stateOfCharge: real)

  datatype OutboundMessage = OutboundMessage(
    epochNumber: nat,
    triggeringMessageIds: seq<string>,
    payload: Payload)

  /** What a send leaves behind: a published message, or an error report for
      its kind carrying the caught exception and the reported description. */
  datatype Event =
    | Published(topic: string, message: OutboundMessage)
    | ErrorReported(kind: OutputKind, exception: Exception, description: string)

  const InternalErrorDescription: string := "Internal error when creating result message."

  /** The result of `process_epoch`: it returns True after the events, or an
      exception escapes after the events that happened before it. */
  datatype EpochResult =
    | Completed(events: seq<Event>)
    | Aborted(events: seq<Event>, exception: Exception)

  /** The result of one send. */
  datatype SendResult = Done(event: Event) | Escaped(exception: Exception)

  function PayloadKind(p: Payload): OutputKind
  {
    match p
    case CarMetadataPayload(_, _, _, _, _, _, _) => CarMetadata
    case UserStatePayload(_, _, _) => UserState
    case CarStatePayload(_, _, _) => CarState
  }

  function EventKind(e: Event): OutputKind
  {
    match e
    case Published(_, msg) => PayloadKind(msg.payload)
    case ErrorReported(kind, _, _) => kind
  }

  /** The payload of `kind`, taken from the configuration. */
  function BuildPayload(cfg: Config, kind: OutputKind): (p: Payload)
    ensures PayloadKind(p) == kind
    ensures p.userId == cfg.userId
  {
    match kind
    case CarMetadata =>
      CarMetadataPayload(cfg.userId, cfg.userName, cfg.stationId, cfg.stateOfCharge,
                         cfg.carBatteryCapacity, cfg.carModel, cfg.carMaxPower)
    case UserState => UserStatePayload(cfg.userId, cfg.targetStateOfCharge, cfg.targetTime)
    case CarState => CarStatePayload(cfg.userId, cfg.stationId, cfg.stateOfCharge)
  }

  function TopicBase(cfg: Config, kind: OutputKind): string
  {
    match kind
    case CarMetadata => cfg.carMetadataTopicBase
    case UserState => cfg.userStateTopicBase
    case CarState => cfg.carStateTopicBase
  }

  /** The output topic of every kind: its base, a dot, the component name. */
  function OutputTopics(cfg: Config): (topics: map<OutputKind, string>)
    ensures forall kind :: kind in topics
    ensures forall kind :: topics[kind] == TopicBase(cfg, kind) + "." + cfg.componentName
  {
    map kind: OutputKind | true :: Topics.TopicName(TopicBase(cfg, kind), cfg.componentName)
  }

  /** Some step of a send fails: building raises, the topic attribute is
      missing, or publishing raises. */
  predicate SendFails(kind: OutputKind, topics: map<OutputKind, string>, a: Attempt)
  {
    a.build.Raise? || kind !in topics || a.publish.Raise?
  }

  /** The exception raised by the first failing step; later steps never run. */
  function FirstRaised(kind: OutputKind, topics: map<OutputKind, string>, a: Attempt): Exception
    requires SendFails(kind, topics, a)
  {
    if a.build.Raise? then a.build.exception
    else if kind !in topics then AttributeError
    else a.publish.exception
  }

  /** The first failing step raises an exception the send does not catch. */
  predicate Escapes(kind: OutputKind, topics: map<OutputKind, string>, a: Attempt)
  {
    SendFails(kind, topics, a) && !Caught(FirstRaised(kind, topics, a))
  }

  /** One `_send_*` call: build the message, read the output topic attribute,
      publish; a caught exception becomes an error report. A kind missing
      from `topics` is an attribute that was never set. */
  function Send(cfg: Config, epoch: nat, ids: seq<string>, kind: OutputKind,
                topics: map<OutputKind, string>, a: Attempt): (r: SendResult)
    ensures r.Done? ==> EventKind(r.event) == kind
    ensures r.Done? && r.event.Published? <==> Succeeds(a) && kind in topics
    ensures r.Done? && r.event.Published? ==>
              r.event == Published(topics[kind], OutboundMessage(epoch, ids, BuildPayload(cfg, kind)))
    ensures r.Done? && r.event.ErrorReported? ==>
              Caught(r.event.exception) && r.event.description == InternalErrorDescription
    ensures Contained(a) && kind in topics ==> r.Done?
    ensures r.Escaped? <==> Escapes(kind, topics, a)
    ensures r.Escaped? ==> SendFails(kind, topics, a) && r.exception == FirstRaised(kind, topics, a)
    ensures r.Done? && r.event.ErrorReported? ==>
              SendFails(kind, topics, a) && r.event.exception == FirstRaised(kind, topics, a)
  {
    if a.build.Raise? then
      if Caught(a.build.exception) then Done(ErrorReported(kind, a.build.exception, InternalErrorDescription))
      else Escaped(a.build.exception)
    else if kind !in topics then
      Escaped(AttributeError)
    else if a.publish.Raise? then
      if Caught(a.publish.exception) then Done(ErrorReported(kind, a.publish.exception, InternalErrorDescription))
      else Escaped(a.publish.exception)
    else
      Done(Published(topics[kind], OutboundMessage(epoch, ids, BuildPayload(cfg, kind))))
  }

  /** The sends of `kinds`, in order, until one lets an exception escape. */
  function Dispatch(cfg: Config, epoch: nat, ids: seq<string>, kinds: seq<OutputKind>,
                    topics: map<OutputKind, string>, env: OutputKind -> Attempt): (r: EpochResult)
    ensures |r.events| <= |kinds|
    decreases |kinds|
  {
    if |kinds| == 0 then Completed([])
    else
      match Send(cfg, epoch, ids, kinds[0], topics, env(kinds[0]))
      case Escaped(e) => Aborted([], e)
      case Done(event) =>
        match Dispatch(cfg, epoch, ids, kinds[1..], topics, env)
        case Completed(events) => Completed([event] + events)
        case Aborted(events, e) => Aborted([event] + events, e)
  }

  /** The fan-out order lists every output kind. */
  lemma EveryKindIsSent()
    ensures forall k :: k in FanOutOrder
  {
    forall k: OutputKind ensures k in FanOutOrder {
      match k
      case CarMetadata => assert FanOutOrder[0] == k;
      case UserState => assert FanOutOrder[1] == k;
      case CarState => assert FanOutOrder[2] == k;
    }
  }

  /** `process_epoch` with every output topic set. */
  function ProcessEpoch(cfg: Config, epoch: nat, ids: seq<string>, env: OutputKind -> Attempt): (r: EpochResult)
    ensures r.Completed? <==> forall k :: !Escapes(k, OutputTopics(cfg), env(k))
  {
    DispatchAborts(cfg, epoch, ids, FanOutOrder, OutputTopics(cfg), env);
    var r := Dispatch(cfg, epoch, ids, FanOutOrder, OutputTopics(cfg), env);
    EveryKindIsSent();
    r
  }

  /** Every event of a dispatch belongs, in order, to the kind that caused it;
      messages carry the epoch, the triggering ids and their kind's topic and
      payload; error reports carry a caught exception. */
  lemma {:induction false} DispatchEvents(cfg: Config, epoch: nat, ids: seq<string>, kinds: seq<OutputKind>,
                                          topics: map<OutputKind, string>, env: OutputKind -> Attempt)
    ensures var r := Dispatch(cfg, epoch, ids, kinds, topics, env);
            forall i :: 0 <= i < |r.events| ==>
              && EventKind(r.events[i]) == kinds[i]
              && (r.events[i].Published? <==> Succeeds(env(kinds[i])))
              && (r.events[i].Published? ==>
                    kinds[i] in topics &&
                    r.events[i] == Published(topics[kinds[i]],
                                             OutboundMessage(epoch, ids, BuildPayload(cfg, kinds[i]))))
              && (r.events[i].ErrorReported? ==> Caught(r.events[i].exception))
    decreases |kinds|
  {
    if |kinds| > 0 {
      DispatchEvents(cfg, epoch, ids, kinds[1..], topics, env);
    }
  }

  /** When every kind has a topic and every exception is caught, the
      dispatch completes with exactly one event per kind. */
  lemma {:induction false} DispatchCompletes(cfg: Config, epoch: nat, ids: seq<string>, kinds: seq<OutputKind>,
                                             topics: map<OutputKind, string>, env: OutputKind -> Attempt)
    requires forall i :: 0 <= i < |kinds| ==> kinds[i] in topics && Contained(env(kinds[i]))
    ensures Dispatch(cfg, epoch, ids, kinds, topics, env).Completed?
    ensures |Dispatch(cfg, epoch, ids, kinds, topics, env).events| == |kinds|
    decreases |kinds|
  {
    if |kinds| > 0 {
      DispatchCompletes(cfg, epoch, ids, kinds[1..], topics, env);
    }
  }

  /** A dispatch aborts exactly when some kind's send lets an exception
      escape; it then stops at the first such kind, every earlier kind has
      left its event, and the escaping exception is that kind's first
      failure. A completed dispatch leaves one event per kind. */
  lemma {:induction false} DispatchAborts(cfg: Config, epoch: nat, ids: seq<string>, kinds: seq<OutputKind>,
                                          topics: map<OutputKind, string>, env: OutputKind -> Attempt)
    ensures var r := Dispatch(cfg, epoch, ids, kinds, topics, env);
            r.Aborted? <==> exists j :: 0 <= j < |kinds| && Escapes(kinds[j], topics, env(kinds[j]))
    ensures var r := Dispatch(cfg, epoch, ids, kinds, topics, env);
            r.Completed? ==> |r.events| == |kinds|
    ensures var r := Dispatch(cfg, epoch, ids, kinds, topics, env);
            r.Aborted? ==>
              && |r.events| < |kinds|
              && (forall i :: 0 <= i < |r.events| ==> !Escapes(kinds[i], topics, env(kinds[i])))
              && var k := kinds[|r.events|];
                 Escapes(k, topics, env(k)) && r.exception == FirstRaised(k, topics, env(k))
    decreases |kinds|
  {
    if |kinds| > 0 {
      var tail := kinds[1..];
      DispatchAborts(cfg, epoch, ids, tail, topics, env);
      var r := Dispatch(cfg, epoch, ids, kinds, topics, env);
      var rest := Dispatch(cfg, epoch, ids, tail, topics, env);
      if Escapes(kinds[0], topics, env(kinds[0])) {
        assert r == Aborted([], FirstRaised(kinds[0], topics, env(kinds[0])));
      } else {
        assert r.events == [Send(cfg, epoch, ids, kinds[0], topics, env(kinds[0])).event] + rest.events;
        assert r.Aborted? == rest.Aborted?;
        if rest.Aborted? {
          var j :| 0 <= j < |tail| && Escapes(tail[j], topics, env(tail[j]));
          assert kinds[j + 1] == tail[j];
          forall i | 0 <= i < |r.events| ensures !Escapes(kinds[i], topics, env(kinds[i])) {
            if i > 0 {
              assert kinds[i] == tail[i - 1];
            }
          }
        } else {
          forall j | 0 <= j < |kinds| ensures !Escapes(kinds[j], topics, env(kinds[j])) {
            if j > 0 {
              assert kinds[j] == tail[j - 1];
            }
          }
        }
      }
    }
  }

  /** `process_epoch` sends metadata, user state and car state in that order.
      When every exception is one the sends catch, it returns True, each kind
      is published exactly when its attempt succeeds and reported as an error
      otherwise, regardless of how the other kinds fared; every published
      message carries the epoch, the triggering ids, its own payload and the
      topic `<base>.<component name>`. */
  lemma ProcessEpochFanOut(cfg: Config, epoch: nat, ids: seq<string>, env: OutputKind -> Attempt)
    requires forall k :: Contained(env(k))
    ensures var r := ProcessEpoch(cfg, epoch, ids, env);
            && r.Completed?
            && |r.events| == 3
            && (forall i :: 0 <= i < 3 ==> EventKind(r.events[i]) == FanOutOrder[i])
            && (forall i :: 0 <= i < 3 ==>
                  (r.events[i].Published? <==> Succeeds(env(FanOutOrder[i]))) &&
                  (r.events[i].ErrorReported? <==> !Succeeds(env(FanOutOrder[i]))))
            && (forall i :: 0 <= i < 3 && r.events[i].Published? ==>
                  && r.events[i].message.epochNumber == epoch
                  && r.events[i].message.triggeringMessageIds == ids
                  && r.events[i].message.payload == BuildPayload(cfg, FanOutOrder[i])
                  && r.events[i].topic == TopicBase(cfg, FanOutOrder[i]) + "." + cfg.componentName)
  {
    var topics := OutputTopics(cfg);
    DispatchCompletes(cfg, epoch, ids, FanOutOrder, topics, env);
    DispatchEvents(cfg, epoch, ids, FanOutOrder, topics, env);
  }

  /** The three output topics are distinct whenever the three bases are. */
  lemma OutputTopicsDistinct(cfg: Config, k1: OutputKind, k2: OutputKind)
    requires TopicBase(cfg, k1) != TopicBase(cfg, k2)
    ensures OutputTopics(cfg)[k1] != OutputTopics(cfg)[k2]
  {
    Topics.DistinctBasesDistinctTopics(TopicBase(cfg, k1), TopicBase(cfg, k2), cfg.componentName);
  }

  /** The output topic map of the source: the user state topic attribute is
      never assigned, so it is missing. */
  function OutputTopicsAsWritten(cfg: Config): (topics: map<OutputKind, string>)
    ensures UserState !in topics
    ensures forall k :: k != UserState ==> k in topics
    ensures forall k :: k in topics ==> topics[k] == OutputTopics(cfg)[k]
  {
    map kind: OutputKind | kind != UserState :: Topics.TopicName(TopicBase(cfg, kind), cfg.componentName)
  }

  /** `process_epoch` as written, with the user state topic attribute missing. */
  function ProcessEpochAsWritten(cfg: Config, epoch: nat, ids: seq<string>, env: OutputKind -> Attempt): EpochResult
  {
    Dispatch(cfg, epoch, ids, FanOutOrder, OutputTopicsAsWritten(cfg), env)
  }

  /** As written, a user state message that builds raises AttributeError,
      which the send does not catch: the car state kind is never attempted
      and `process_epoch` does not return True. */
  lemma AsWrittenNeverSendsCarState(cfg: Config, epoch: nat, ids: seq<string>, env: OutputKind -> Attempt)
    requires Contained(env(CarMetadata))
    requires env(UserState).build.Ok?
    ensures ProcessEpochAsWritten(cfg, epoch, ids, env) ==
              Aborted([Send(cfg, epoch, ids, CarMetadata, OutputTopicsAsWritten(cfg), env(CarMetadata)).event],
                      AttributeError)
  {
    assert FanOutOrder[1..][1..] == [CarState];
  }

  /** End-to-end example: epoch 7, one triggering id,
      every send succeeds: three messages, each stamped (7, ["m1"]). */
  lemma AllSendsSucceedExample(cfg: Config)
    ensures var r := ProcessEpoch(cfg, 7, ["m1"], _ => Attempt(Ok, Ok));
            && r.Completed?
            && |r.events| == 3
            && forall i :: 0 <= i < 3 ==>
                 r.events[i].Published? && r.events[i].message.epochNumber == 7
                 && r.events[i].message.triggeringMessageIds == ["m1"]
  {
    ProcessEpochFanOut(cfg, 7, ["m1"], _ => Attempt(Ok, Ok));
  }

  /** The second kind fails to build with a validation error: the first is
      published, the second reported, and the third still published. */
  lemma SecondKindFailsExample(cfg: Config)
    ensures var env := (k: OutputKind) => if k == UserState then Attempt(Raise(ValueError), Ok) else Attempt(Ok, Ok);
            var r := ProcessEpoch(cfg, 7, ["m1"], env);
            && r.Completed?
            && |r.events| == 3
            && r.events[0].Published? && r.events[0].message.payload.CarMetadataPayload?
            && r.events[1] == ErrorReported(UserState, ValueError, InternalErrorDescription)
            && r.events[2].Published? && r.events[2].message.payload.CarStatePayload?
  {
    var env := (k: OutputKind) => if k == UserState then Attempt(Raise(ValueError), Ok) else Attempt(Ok, Ok);
    ProcessEpochFanOut(cfg, 7, ["m1"], env);
  }
}

=== FILE: input_components.dfy ===
/**
 Parsing of the INPUT_COMPONENTS setting: a comma-separated list of the
 names of the components whose input is required in every epoch. The list
 is split on "," and empty names are dropped; duplicates collapse because
 the result is a set.
 */
module InputComponents {
  import Strings

  const Separator: char := ','

  /** The set of non-empty names in the comma-separated list `s`. */
  function ParseInputComponents(s: string): (names: set<string>)
    ensures "" !in names
    ensures forall n :: n in names ==> Separator !in n
    ensures forall n :: n in names ==> |n| <= |s|
  {
    var pieces := Strings.Split(s, Separator);
    PiecesAreShort(s);
    set i | 0 <= i < |pieces| && pieces[i] != "" :: pieces[i]
  }

  /** No piece of a split is longer than the string that was split. */
  lemma PiecesAreShort(s: string)
    ensures forall i :: 0 <= i < |Strings.Split(s, Separator)| ==> |Strings.Split(s, Separator)[i]| <= |s|
  {
    var pieces := Strings.Split(s, Separator);
    Strings.JoinSplit(s, Separator);
    forall i | 0 <= i < |pieces| ensures |pieces[i]| <= |Strings.Join(pieces, Separator)| {
      PieceWithinJoin(pieces, i);
    }
  }

  /** Every piece is a part of the joined string, so it is no longer than it. */
  lemma {:induction false} PieceWithinJoin(pieces: seq<string>, i: nat)
    requires i < |pieces|
    ensures |pieces[i]| <= |Strings.Join(pieces, Separator)|
    decreases |pieces|
  {
    if i > 0 {
      PieceWithinJoin(pieces[1..], i - 1);
    }
  }

  /** A name is parsed exactly when it is a non-empty piece of the list. */
  lemma ParsedNamesArePieces(s: string, n: string)
    ensures n in ParseInputComponents(s) <==> n != "" && n in Strings.Split(s, Separator)
  {
    var pieces := Strings.Split(s, Separator);
    if n != "" && n in pieces {
      var i :| 0 <= i < |pieces| && pieces[i] == n;
      assert pieces[i] in ParseInputComponents(s);
    }
  }

  /** An unset (empty) setting means no required inputs. */
  lemma EmptySettingHasNoInputs()
    ensures ParseInputComponents("") == {}
  {
    assert Strings.Split("", Separator) == [""];
  }

  /** Listing valid names with commas in any order and with repetitions parses
      back to exactly the set of those names. */
  lemma {:induction false} ParseJoinRoundTrip(names: seq<string>)
    requires forall i :: 0 <= i < |names| ==> names[i] != "" && Separator !in names[i]
    ensures ParseInputComponents(Strings.Join(names, Separator)) == set i | 0 <= i < |names| :: names[i]
  {
    var listed := set i | 0 <= i < |names| :: names[i];
    if |names| == 0 {
      EmptySettingHasNoInputs();
    } else {
      var s := Strings.Join(names, Separator);
      Strings.SplitJoin(names, Separator);
      forall n ensures n in ParseInputComponents(s) <==> n in listed {
        ParsedNamesArePieces(s, n);
        if n in listed {
          var i :| 0 <= i < |names| && names[i] == n;
          assert n in Strings.Split(s, Separator);
        }
      }
    }
  }

  /** Parsing distributes over a comma: the names of a list are those before
      the comma together with those after it. */
  lemma ParseAroundSeparator(a: string, b: string)
    ensures ParseInputComponents(a + [Separator] + b) == ParseInputComponents(a) + ParseInputComponents(b)
  {
    var s := a + [Separator] + b;
    Strings.SplitAroundSeparator(a, b, Separator);
    forall n ensures n in ParseInputComponents(s) <==> n in ParseInputComponents(a) + ParseInputComponents(b) {
      ParsedNamesArePieces(s, n);
      ParsedNamesArePieces(a, n);
      ParsedNamesArePieces(b, n);
    }
  }

  /** Leading, trailing and doubled commas add no name. */
  lemma EmptyEntriesIgnored(s: string, t: string)
    ensures ParseInputComponents([Separator] + s) == ParseInputComponents(s)
    ensures ParseInputComponents(s + [Separator]) == ParseInputComponents(s)
    ensures ParseInputComponents(s + [Separator, Separator] + t) == ParseInputComponents(s) + ParseInputComponents(t)
  {
    LeadingCommaIgnored(s);
    LeadingCommaIgnored(t);
    assert ParseInputComponents(s + [Separator]) == ParseInputComponents(s) by {
      EmptySettingHasNoInputs();
      ParseAroundSeparator(s, "");
      assert s + [Separator] + "" == s + [Separator];
    }
    assert s + [Separator, Separator] + t == s + [Separator] + ([Separator] + t);
    ParseAroundSeparator(s, [Separator] + t);
  }

  /** A leading comma adds no name. */
  lemma LeadingCommaIgnored(s: string)
    ensures ParseInputComponents([Separator] + s) == ParseInputComponents(s)
  {
    EmptySettingHasNoInputs();
    ParseAroundSeparator("", s);
    assert "" + [Separator] + s == [Separator] + s;
  }

  /** Repeating a list adds no name. */
  lemma RepeatedEntriesIgnored(s: string)
    ensures ParseInputComponents(s + [Separator] + s) == ParseInputComponents(s)
  {
    ParseAroundSeparator(s, s);
  }

  /** A concrete list with leading, trailing, doubled and repeated entries. */
  lemma MessyListExample()
    ensures ParseInputComponents(",a,,b,a,") == {"a", "b"}
  {
    var s := ",a,,b,a,";
    var pieces := ["", "a", "", "b", "a", ""];
    Strings.SplitJoin(pieces, Separator);
    assert Strings.Join(pieces, Separator) == s;
    forall n ensures n in ParseInputComponents(s) <==> n in {"a", "b"} {
      ParsedNamesArePieces(s, n);
    }
  }
}

=== FILE: strings.dfy ===
/**
 String splitting and joining on a single separator character, with the
 semantics of Python's `str.split(sep)` and `sep.join(pieces)` for a
 one-character separator. Splitting never drops pieces: the empty string
 splits into one empty piece, and adjacent separators yield empty pieces.
 */
module Strings {

  /** Number of occurrences of `c` in `s`. */
  function Occurrences(s: string, c: char): nat
  {
    if |s| == 0 then 0
    else (if s[0] == c then 1 else 0) + Occurrences(s[1..], c)
  }

  /** `s.split(sep)`: the maximal separator-free pieces of `s`, in order. */
  function Split(s: string, sep: char): (pieces: seq<string>)
    ensures |pieces| == Occurrences(s, sep) + 1
    ensures forall i :: 0 <= i < |pieces| ==> sep !in pieces[i]
    decreases |s|
  {
    if |s| == 0 then [""]
    else
      var rest := Split(s[1..], sep);
      if s[0] == sep then [""] + rest
      else [[s[0]] + rest[0]] + rest[1..]
  }

  /** `sep.join(pieces)`: the pieces with one separator between neighbours. */
  function Join(pieces: seq<string>, sep: char): string
  {
    if |pieces| == 0 then ""
    else if |pieces| == 1 then pieces[0]
    else pieces[0] + [sep] + Join(pieces[1..], sep)
  }

  /** Joining the pieces of a split restores the original string. */
  lemma {:induction false} JoinSplit(s: string, sep: char)
    ensures Join(Split(s, sep), sep) == s
    decreases |s|
  {
    if |s| > 0 {
      var rest := Split(s[1..], sep);
      JoinSplit(s[1..], sep);
      assert Join(rest, sep) == s[1..];
      if s[0] == sep {
        assert Split(s, sep) == [""] + rest;
        assert Join([""] + rest, sep) == "" + [sep] + Join(rest, sep);
      } else {
        var pieces := Split(s, sep);
        assert pieces == [[s[0]] + rest[0]] + rest[1..];
        if |rest| == 1 {
          assert Join(pieces, sep) == [s[0]] + rest[0];
        } else {
          assert Join(rest, sep) == rest[0] + [sep] + Join(rest[1..], sep);
          assert pieces[1..] == rest[1..];
          assert Join(pieces, sep) == ([s[0]] + rest[0]) + [sep] + Join(rest[1..], sep);
        }
        assert s == [s[0]] + s[1..];
      }
    }
  }

  /** A string without the separator is a single piece. */
  lemma {:induction false} SplitWithoutSeparator(s: string, sep: char)
    requires sep !in s
    ensures Split(s, sep) == [s]
    decreases |s|
  {
    if |s| > 0 {
      assert sep !in s[1..] by {
        forall i | 0 <= i < |s[1..]| ensures s[1..][i] != sep {
          assert s[1..][i] == s[i + 1];
        }
      }
      SplitWithoutSeparator(s[1..], sep);
      assert s == [s[0]] + s[1..];
    }
  }

  /** Splitting distributes over a separator: the pieces of `a`, then those of `b`. */
  lemma {:induction false} SplitAroundSeparator(a: string, b: string, sep: char)
    ensures Split(a + [sep] + b, sep) == Split(a, sep) + Split(b, sep)
    decreases |a|
  {
    var s := a + [sep] + b;
    if |a| == 0 {
      assert s == [sep] + b;
      assert s[1..] == b;
      assert Split(s, sep) == [""] + Split(b, sep);
    } else {
      var a' := a[1..];
      assert s[0] == a[0];
      assert s[1..] == a' + [sep] + b;
      SplitAroundSeparator(a', b, sep);
      var head := Split(a', sep);
      var rest := Split(s[1..], sep);
      assert rest == head + Split(b, sep);
      if a[0] == sep {
        assert Split(s, sep) == [""] + rest;
        assert Split(a, sep) == [""] + head;
      } else {
        assert Split(s, sep) == [[a[0]] + rest[0]] + rest[1..];
        assert Split(a, sep) == [[a[0]] + head[0]] + head[1..];
        assert rest[0] == head[0];
        assert rest[1..] == head[1..] + Split(b, sep);
      }
    }
  }

  /** Splitting a join of separator-free pieces recovers the pieces. */
  lemma {:induction false} SplitJoin(pieces: seq<string>, sep: char)
    requires |pieces| >= 1
    requires forall i :: 0 <= i < |pieces| ==> sep !in pieces[i]
    ensures Split(Join(pieces, sep), sep) == pieces
    decreases |pieces|
  {
    if |pieces| == 1 {
      SplitWithoutSeparator(pieces[0], sep);
    } else {
      var tail := pieces[1..];
      SplitJoin(tail, sep);
      SplitWithoutSeparator(pieces[0], sep);
      SplitAroundSeparator(pieces[0], Join(tail, sep), sep);
      assert pieces == [pieces[0]] + tail;
    }
  }
}

=== FILE: topics.dfy ===
/**
 Output topic names. Each output kind is published to the topic
 `<base>.<component name>`, built with Python's `".".join([base, name])`, so
 that several instances of the same component type, which share the bases,
 publish to distinct topics.
 */
module Topics {
  import Strings

  const Dot: char := '.'

  /** Default topic bases used when the environment does not set them. */
  const DefaultUserStateTopic: string := "User.UserState"
  const DefaultCarStateTopic: string := "User.CarState"
  const DefaultCarMetadataTopic: string := "Init.User.CarMetadata"

  /** The output topic for `base` and the component `name`. */
  function TopicName(base: string, name: string): (topic: string)
    ensures topic == base + [Dot] + name
    ensures |topic| == |base| + 1 + |name|
  {
    assert [base, name][1..] == [name];
    assert Strings.Join([name], Dot) == name;
    Strings.Join([base, name], Dot)
  }

  /** The dotted segments of a topic are those of its base followed by those
      of the component name. */
  lemma TopicSegments(base: string, name: string)
    ensures Strings.Split(TopicName(base, name), Dot) == Strings.Split(base, Dot) + Strings.Split(name, Dot)
  {
    Strings.SplitAroundSeparator(base, name, Dot);
  }

  /** With a dot-free component name, the name is the topic's last segment. */
  lemma LastSegmentIsName(base: string, name: string)
    requires Dot !in name
    ensures var segments := Strings.Split(TopicName(base, name), Dot);
            segments[|segments| - 1] == name
  {
    TopicSegments(base, name);
    Strings.SplitWithoutSeparator(name, Dot);
  }

  /** For the same base, two components with different names never share
      an output topic. */
  lemma DistinctNamesDistinctTopics(base: string, name1: string, name2: string)
    requires name1 != name2
    ensures TopicName(base, name1) != TopicName(base, name2)
  {
    assert TopicName(base, name1)[|base| + 1..] == name1;
    assert TopicName(base, name2)[|base| + 1..] == name2;
  }

  /** One component never uses the same topic for two different bases. */
  lemma DistinctBasesDistinctTopics(base1: string, base2: string, name: string)
    requires base1 != base2
    ensures TopicName(base1, name) != TopicName(base2, name)
  {
    var t1, t2 := TopicName(base1, name), TopicName(base2, name);
    assert t1[..|t1| - |name| - 1] == base1;
    assert t2[..|t2| - |name| - 1] == base2;
  }

  /** With the default bases, one component's three output topics are
      pairwise distinct. */
  lemma DefaultTopicsDistinct(name: string)
    ensures TopicName(DefaultUserStateTopic, name) != TopicName(DefaultCarStateTopic, name)
    ensures TopicName(DefaultUserStateTopic, name) != TopicName(DefaultCarMetadataTopic, name)
    ensures TopicName(DefaultCarStateTopic, name) != TopicName(DefaultCarMetadataTopic, name)
  {
    assert DefaultUserStateTopic[5] != DefaultCarStateTopic[5];
    DistinctBasesDistinctTopics(DefaultUserStateTopic, DefaultCarStateTopic, name);
    assert |DefaultUserStateTopic| != |DefaultCarMetadataTopic|;
    DistinctBasesDistinctTopics(DefaultUserStateTopic, DefaultCarMetadataTopic, name);
    assert |DefaultCarStateTopic| != |DefaultCarMetadataTopic|;
    DistinctBasesDistinctTopics(DefaultCarStateTopic, DefaultCarMetadataTopic, name);
  }
}

=== FILE: user_component.dfy ===
/**
 The user component seen end to end: an inbound message goes through the
 epoch gate, and when it is the registration that makes the epoch ready,
 the epoch is processed with the triggering ids collected so far. Whether
 the platform actually starts processing at that point is decided by the
 platform's base component, which is not part of this model; here it is
 taken to start exactly then.
 */
module UserComponent {
  import EpochGate
  import FanOut

  datatype Processing = NotTriggered | Triggered(result: FanOut.EpochResult)

  datatype Reaction = Reaction(step: EpochGate.Step, processing: Processing)

  /** Handle one inbound message in epoch `epoch` and, if it completes the
      inputs, process the epoch. */
  function OnMessage(c: EpochGate.EpochContext, m: EpochGate.Message, epoch: nat,
                     cfg: FanOut.Config, env: FanOut.OutputKind -> FanOut.Attempt): (r: Reaction)
    requires EpochGate.Valid(c)
    ensures r.step == EpochGate.HandleMessage(c, m)
    ensures r.processing.Triggered? <==>
              !EpochGate.AllMessagesReceived(c) && EpochGate.AllMessagesReceived(r.step.context)
    ensures r.processing.Triggered? ==>
              && m.UserStateMessage?
              && |r.step.context.triggeringIds| == |c.required|
              && r.step.context.triggeringIds == c.triggeringIds + [m.messageId]
    ensures r.processing.Triggered? ==>
              r.processing.result == FanOut.ProcessEpoch(cfg, epoch, r.step.context.triggeringIds, env)
    ensures r.processing.Triggered? && (forall k :: FanOut.Contained(env(k))) ==>
              && r.processing.result.Completed?
              && |r.processing.result.events| == |FanOut.FanOutOrder|
              && (forall i :: 0 <= i < |r.processing.result.events| ==>
                    && FanOut.EventKind(r.processing.result.events[i]) == FanOut.FanOutOrder[i]
                    && (r.processing.result.events[i].Published? <==> FanOut.Succeeds(env(FanOut.FanOutOrder[i]))))
              && forall i :: 0 <= i < |r.processing.result.events| && r.processing.result.events[i].Published? ==>
                   && r.processing.result.events[i].message.epochNumber == epoch
                   && r.processing.result.events[i].message.triggeringMessageIds == c.triggeringIds + [m.messageId]
  {
    var s := EpochGate.HandleMessage(c, m);
    EpochGate.RegistrationCompletesIffNewlyReady(c, m);
    EpochGate.HandlePreservesValid(c, m);
    EpochGate.ReadyIffAllIdsCollected(s.context);
    if s.verdict == EpochGate.Registered && EpochGate.AllMessagesReceived(s.context) then
      FanOut.DispatchEvents(cfg, epoch, s.context.triggeringIds, FanOut.FanOutOrder, FanOut.OutputTopics(cfg), env);
      FanOut.DispatchAborts(cfg, epoch, s.context.triggeringIds, FanOut.FanOutOrder, FanOut.OutputTopics(cfg), env);
      Reaction(s, Triggered(FanOut.ProcessEpoch(cfg, epoch, s.context.triggeringIds, env)))
    else
      Reaction(s, NotTriggered)
  }

  /** One required source "stationSim"; its message "m1" arrives in epoch 7
      and every send succeeds: processing is triggered and publishes three
      messages, each stamped with epoch 7 and the triggering ids ["m1"]. */
  lemma SingleInputExample(cfg: FanOut.Config)
    ensures var c := EpochGate.BeginEpoch(EpochGate.EpochContext({"stationSim"}, {}, []));
            var r := OnMessage(c, EpochGate.UserStateMessage("m1", "stationSim"), 7, cfg,
                               _ => FanOut.Attempt(FanOut.Ok, FanOut.Ok));
            && r.step.context.triggeringIds == ["m1"]
            && r.processing.Triggered?
            && r.processing.result.Completed?
            && |r.processing.result.events| == 3
            && forall i :: 0 <= i < 3 ==>
                 && r.processing.result.events[i].Published?
                 && r.processing.result.events[i].message.epochNumber == 7
                 && r.processing.result.events[i].message.triggeringMessageIds == ["m1"]
  {
    var c := EpochGate.BeginEpoch(EpochGate.EpochContext({"stationSim"}, {}, []));
    var s := EpochGate.HandleMessage(c, EpochGate.UserStateMessage("m1", "stationSim"));
    assert s.context.received == {"stationSim"};
    FanOut.AllSendsSucceedExample(cfg);
  }
}
